=== FILE: README.md ===
# TextEditorLab state logic in Dafny

TextEditorLab is a small multi-tab plain-text editor for Windows Forms. This
project models the state logic behind its GUI and proves properties about it.
The model has three parts:

- **The recent-files list** (`RecentList`). It holds at most five paths, most
  recent first. No two entries name the same file under case-insensitive
  comparison. The list is mirrored in a settings file with one path per line.
  The model covers `Add`, `SaveData`, `LoadData` (the Where / Distinct / Take
  pipeline) and `GetFilePaths`, which prunes vanished files.
- **The document state** (`Document`). A document has an optional path, the
  text of its editor widget and the `IsModified` flag. The model covers both
  constructors, `HasName`, `StringShortName`, `Open`, `Save`, the interactive
  `SaveAs()` and `SaveAs(path)`.
- **The window and its commands** (`MainForm`, `Editor`). The window holds the
  tabs as a sequence of documents, plus the selected tab, the enabled state of
  the Save / Save As / Close items, the recent list and the file system. The
  model covers the close-with-prompt protocol of `CloseTab`, the shutdown loop
  of `MainForm_FormClosing`, `OpenFile` with its `DocOpened` check,
  `CreateNewTab`, `UpdateRecentFiles`, the text-changed handler,
  `UpdateMenuState`, and the menu commands of `Editor`.

The file system is a `map<string, string>` from path to content. A read
succeeds exactly when the path is a key of the map, and `File.Exists` is
membership in the map's keys. Everything else the user or the disk decides
is a parameter of the operation that needs it:

- the answer of the save dialog (`SaveDialog`), and of the open dialog;
- the Yes / No / Cancel answer of the "save changes?" box (`CloseReply`);
- whether a write succeeds (`writeOk`);
- whether reading the settings file succeeds (`readOk`).

Case-insensitive comparison (`OrdinalIgnoreCase`) is equality of `Paths.Key`.
That function folds ASCII letters to upper case. Only the concrete example
`RecentFiles.MoveToFrontExample` depends on how `Key` folds, because it
computes the keys of two literal paths. Every other proof uses only that
`Key` is a function.

C# strings may be null. In every operation modelled here, a null argument
takes the same branch as the empty string, because each path check is
`IsNullOrEmpty`. So string arguments are plain `string`, and null is
modelled by `""`. A document's path is an `Option<string>`, and `None`
stands for the `null` that the new-document constructor sets.

Files: `optional.dfy` holds `Option`. `paths.dfy` holds the key fold, the
white-space test and `Path.GetFileName`. `recent_files.dfy` models
RecentList.cs, and `documents.dfy` models Document.cs. `main_form.dfy` models
MainForm.cs and holds `Editor.DocOpened`, because `OpenFile` calls it while
Editor.cs calls `OpenFile`. `editor.dfy` models the rest of Editor.cs.

## Model

| member | source | states |
|---|---|---|
| Paths.FileName | TextEditorLab/Document.cs:43 | the file name is the longest suffix of the path that has no `\`, `/` or `:` in it |
| RecentFiles.Add | TextEditorLab/RecentList.cs:26-41 | an empty name leaves the list unchanged; otherwise the name is first, no later entry names the same file case-insensitively, there are at most 5 entries, and the settings file holds the new list |
| RecentFiles.AddKeepsOrder | TextEditorLab/RecentList.cs:31-39 | the entries after the front one are a prefix of the old entries that name another file, in their old order, so a full list loses its oldest entries; an old entry is dropped only when the list is full |
| RecentFiles.AddToFullDropsOldest | TextEditorLab/RecentList.cs:33-39 | adding a file the list does not name to a full list puts it first and drops exactly the last, least recent entry |
| RecentFiles.AddValid | TextEditorLab/RecentList.cs:9-9 | `Add` keeps the list bounded by 5, free of case-insensitive duplicates and free of empty entries |
| RecentFiles.AddIdempotent | TextEditorLab/RecentList.cs:31-39 | adding the same path twice in a row gives the same list as adding it once |
| RecentFiles.AddNew | TextEditorLab/RecentList.cs:31-33 | adding a file the list does not name yet, to a list that is not full, puts it in front of all the old entries |
| RecentFiles.MoveToFrontScenario | TextEditorLab/RecentList.cs:26-41 | from an empty list, adding x, then y, then x again gives exactly [x, y] |
| RecentFiles.MoveToFrontExample | TextEditorLab/RecentList.cs:26-41 | the same with "/a/x.txt" and "/a/y.txt" |
| RecentFiles.SaveData | TextEditorLab/RecentList.cs:44-55 | the settings file holds exactly the current list, and the list is unchanged |
| RecentFiles.Distinct | TextEditorLab/RecentList.cs:67 | the de-duplication keeps every first occurrence of a file, keeps only entries of its input, and keeps their order |
| RecentFiles.DistinctOrder | TextEditorLab/RecentList.cs:67 | the kept entries are ordered by the index where their file first occurs in the input, strictly increasing; with `Distinct` this fixes the result to the first occurrences in input order |
| RecentFiles.DistinctUnique | TextEditorLab/RecentList.cs:67 | the de-duplicated list never names one file twice |
| RecentFiles.DistinctComplete | TextEditorLab/RecentList.cs:67 | every file named in the input is still named by some kept entry |
| RecentFiles.LoadData | TextEditorLab/RecentList.cs:58-76 | a missing settings file leaves the list untouched, and a failed read empties it; otherwise the streaming loop yields non-blank, existing, pairwise distinct entries, at most 5, in order of first occurrence |
| RecentFiles.Create | TextEditorLab/RecentList.cs:13-23 | the constructor's list is what `LoadData` reads from the settings file: the Where / Distinct / Take result of its lines when the file exists and is read, and empty otherwise; the result is valid, names only existing files and keeps the settings file |
| RecentFiles.GetFilePaths | TextEditorLab/RecentList.cs:79-84 | the copy holds exactly the stored entries that exist, in their old order; the stored list becomes that copy; the settings file is not rewritten |
| RecentFiles.GetFilePathsIdempotent | TextEditorLab/RecentList.cs:82 | pruning an already pruned list changes nothing |
| RecentFiles.SaveLoadRoundTrip | TextEditorLab/RecentList.cs:48-68 | loading what `SaveData` wrote gives back the same list when every entry exists and is not blank |
| Documents.HasName | TextEditorLab/Document.cs:33 | a document has a name exactly when its path is set and not empty |
| Documents.NewDocument | TextEditorLab/Document.cs:18-23 | a new document has no path, no name, empty text and no unsaved changes |
| Documents.FromFile | TextEditorLab/Document.cs:26-30 | a document built from a path has a name exactly when the file could be read (the empty path never can); it shows the file's content and has no unsaved changes |
| Documents.Open | TextEditorLab/Document.cs:60-74 | success exactly when the file exists, never for the empty path; on success the text is the file content, the path is the given one and the flag is cleared; on failure the document is unchanged |
| Documents.ShortName | TextEditorLab/Document.cs:39-50 | the display name starts with the file name, or with "Без имени" when there is no name, and is exactly that, or that followed by one `*` when there are unsaved changes |
| Documents.StarMarksUnsaved | TextEditorLab/Document.cs:43-48 | the display name ends in `*` exactly when the document is modified, provided the file name does not itself end in `*` |
| Documents.SaveAs | TextEditorLab/Document.cs:99-114 | a cancelled dialog returns false and changes nothing; a chosen path becomes the document's path even when the write then fails; success writes the text there and clears the flag |
| Documents.Save | TextEditorLab/Document.cs:77-96 | an unnamed document behaves exactly as the interactive save-as; a named one keeps its path; success writes the text there and clears the flag, and a write failure returns false with the flag kept |
| Documents.SaveAsPath | TextEditorLab/Document.cs:117-121 | a non-empty path becomes the document's path and is written without a dialog; an empty path clears the name, so the dialog is shown |
| Documents.OpenSaveRoundTrip | TextEditorLab/Document.cs:60-96 | saving a document just opened writes back exactly what was read, so files and document are unchanged |
| Documents.SaveIdempotent | TextEditorLab/Document.cs:85-95 | a second successful save right after a first one changes nothing |
| Documents.SaveUnnamedIsSaveAsPath | TextEditorLab/Document.cs:79-83 | saving an unnamed document is the same as `SaveAs(path)` with the path the dialog returns |
| Documents.FirstSaveScenario | TextEditorLab/Document.cs:77-121 | a new document, typed "hello" and saved through the dialog to "/tmp/out.txt", leaves that file holding "hello", the path set and the flag cleared |
| Documents.OpenMissingScenario | TextEditorLab/Document.cs:60-74 | opening a missing file returns false and leaves path and text as they were |
| MainForm.UpdateMenuState | TextEditorLab/MainForm.cs:248-254 | Save, Save As and Close are enabled exactly when at least one tab exists; nothing else changes |
| MainForm.RemoveTab | TextEditorLab/MainForm.cs:240-243 | the tab is removed, the others keep their order, and the window's invariant is kept |
| MainForm.CloseTab | TextEditorLab/MainForm.cs:211-245 | no tab means success with no change; an unmodified tab closes without a prompt; Cancel keeps the tab and the files; No closes without writing; Yes closes exactly when the save succeeds and otherwise keeps the tab with the save's effect |
| MainForm.CloseInOrder | TextEditorLab/MainForm.cs:273-282 | the loop is cancelled exactly when some snapshot tab refuses, that is, it has unsaved changes and gets Cancel, or Yes with a save that fails; it stops at the first such tab, which remains with unsaved changes while the tabs before it are gone and the tabs after it are untouched; the files are those the prompts of the tabs before it wrote; a completed loop leaves no tab; the recent list is untouched |
| MainForm.FormClosing | TextEditorLab/MainForm.cs:270-285 | the shutdown is cancelled exactly when some tab refuses, stopping at the first one; a cancelled shutdown leaves the recent list alone; a complete one leaves no tab, the files as the prompts wrote them, and the recent list persisted; without modified tabs it always completes |
| MainForm.ShutdownSavingOne | TextEditorLab/MainForm.cs:226-231 | one modified, named tab answered Yes with a successful write: the shutdown completes, the file holds the document's text and the recent list is persisted |
| MainForm.ShutdownOutcome | TextEditorLab/MainForm.cs:270-285 | a cancelled shutdown leaves the settings file as it was; a complete one writes the in-memory list and disables the menu items |
| MainForm.ShutdownDiscardingAll | TextEditorLab/MainForm.cs:226-244 | answering No for every tab closes them all and writes no file |
| MainForm.FindOpen | TextEditorLab/Editor.cs:95-107 | finds the first tab whose document has a name equal to the path case-insensitively, or reports that none has |
| MainForm.DocOpened | TextEditorLab/Editor.cs:93-108 | true exactly when some tab holds a named document whose path equals the file case-insensitively, and then the first such tab is selected; otherwise nothing changes |
| MainForm.CreateNewTab | TextEditorLab/MainForm.cs:103-144 | one tab is appended and selected, and the menu items are enabled; its document is unmodified, and is named exactly when the path is non-empty and readable |
| MainForm.GetRecentFilesList | TextEditorLab/MainForm.cs:41 | the returned list holds exactly the recent entries that exist, in their old order; only the in-memory recent list changes, and the settings file is not rewritten |
| MainForm.UpdateRecentFiles | TextEditorLab/MainForm.cs:44-51 | an empty path changes nothing; otherwise the recent list is `Add`'s list with vanished files dropped, in `Add`'s order, so an existing path ends up first; the settings file holds the list as `Add` left it before pruning |
| MainForm.OpenFile | TextEditorLab/MainForm.cs:147-164 | a file already open creates no tab and only selects it; otherwise one tab is added, and the recent list changes only when the open succeeded; an existing file ends up in the selected tab |
| MainForm.TextChanged | TextEditorLab/MainForm.cs:167-177 | editing the selected tab sets its text and marks it modified; other tabs are unchanged |
| MainForm.TextChangedTwice | TextEditorLab/MainForm.cs:171-175 | once a document is marked, a further change only replaces the text |
| MainForm.CloseUnmodified | TextEditorLab/MainForm.cs:215-244 | an unmodified tab closes without asking, whatever the answers would have been |
| MainForm.CloseCancelled | TextEditorLab/MainForm.cs:233-236 | Cancel leaves the document, its flag and the files unchanged and reports failure |
| MainForm.Startup | TextEditorLab/MainForm.cs:28-38 | the window starts with no tabs and disabled items; its recent list is the one loaded from the settings file (empty when the file is missing or unreadable), which the two menu refreshes leave as it is because every loaded entry exists |
| Editor.NewDoc | TextEditorLab/Editor.cs:20-23 | a new tab with a new unnamed document is appended and selected |
| Editor.OpenDoc | TextEditorLab/Editor.cs:38-48 | a cancelled dialog changes nothing; a chosen file is opened and an existing one ends up in the selected tab |
| Editor.CloseActiveDoc | TextEditorLab/Editor.cs:26-35 | with no tab nothing changes; otherwise the close protocol runs on the selected tab, which removes at most that tab |
| Editor.SaveDoc | TextEditorLab/Editor.cs:51-64 | the selected document is saved and the selection stays; only a successful save changes the recent list, exactly as `UpdateRecentFiles` with its path does, which puts that path at the front |
| Editor.SaveDocAs | TextEditorLab/Editor.cs:67-80 | the selected document is saved through the dialog and the selection stays; only a successful save changes the recent list, exactly as `UpdateRecentFiles` with the chosen path does, which puts that path at the front |
| Editor.OpenDocByRecentIndex | TextEditorLab/Editor.cs:83-90 | an index in range opens that recent entry; any other index only prunes the recent list |
| Editor.OpenRecentSelectsIt | TextEditorLab/Editor.cs:83-90 | opening a recent entry leaves a tab holding that file selected |
| Editor.OpenTwiceOneTab | TextEditorLab/MainForm.cs:149-152 | opening an existing file a second time adds no tab |
| Editor.NoTabNoEffect | TextEditorLab/Editor.cs:28-69 | closing, saving and saving-as do nothing when no tab exists |

## Left out

- Owner-drawn tab painting and close-button hit-testing (MainForm.cs:288-366). These are graphics code; the click on a tab's close button ends in `CloseTab`, which is modelled.
- Menu construction, menu labels, tooltips, the window title, tab captions and the "Без имени N" caption counter (MainForm.cs:55-92, 118, 128, 256-267). These are display only. Every caption is overwritten by `StringShortName` at MainForm.cs:143, and that property is modelled.
- Message boxes that report read and write errors, and the save dialog's filter and suggested name. These do not change state.
- The editor widget. `Text` is a field of the document. The widget's own rewriting of the text, such as line-ending conversion, is not modelled.
- The file system is a case-sensitive map, and a read succeeds exactly when the path is present. Windows' case-insensitive file names, permissions and encodings are not modelled.
- Paths.Key folds only ASCII letters. The full Unicode case table of `OrdinalIgnoreCase` is not modelled.
- Paths.FileName does not model the exception `Path.GetFileName` throws on characters that are invalid in paths.
- RecentFiles.SaveData: a failed write of the settings file is swallowed by the source and is not modelled. After such a failure the file keeps its old content or, because `File.WriteAllLines` (RecentList.cs:48) truncates it when it opens it, is left empty or partial; neither is modelled, and the model always holds the current list.
- The settings-file location, directory creation and debug logging (RecentList.cs:16-19, 50-54, 70-74). These are environment plumbing. A failed read is the `readOk` parameter.
- MainForm.CloseTab takes the tab as an index into the tab list, so it cannot be given a tab that is not in the window. The source would only skip the removal for such a tab, and no caller passes one.
- The tab control chooses the selection after a removal. The model follows the Windows Forms rule: the selected tab stays selected, and removing the selected tab selects the first tab.
- The placeholder display name is "Без имени" without a number: the numbered caption set at MainForm.cs:118 and 128 is overwritten by `StringShortName` at MainForm.cs:143.
- The pruning in `GetFilePaths` (RecentList.cs:82) changes only the list in memory; the settings file is not rewritten.
- `OpenDocByRecentIndex` with an index out of range still prunes the recent list, because `GetFilePaths` runs before the range check (Editor.cs:85-86).
- Documents.Save: a failed write is modelled as leaving the files unchanged. `File.WriteAllText` (Document.cs:87) truncates the target when it opens it, so a failure after opening leaves an empty or partial file; what the disk holds after a failure is not modelled.
- Documents.SaveAs: the same assumption for a failed write after the dialog.
- Documents.SaveAsPath: the same assumption for a failed write to the given path.
- MainForm.CloseTab: answering Yes when the save then fails is modelled with the files unchanged, for the same reason.

=== FILE: documents.dfy ===
/** One open document (Document.cs): an optional path, the text of its editor
    widget and the unsaved-changes flag, with open, save and save-as. Files
    live in a map from path to content; a read succeeds exactly when the path
    is in the map, while the outcome of a write and the answer of the save
    dialog are supplied by the caller. */
module Documents {
  import opened Optional
  import opened Paths

  /** Path to content. The empty path names no file: reading it fails. */
  type FileSystem = m: map<string, string> | "" !in m witness map[]

  /** A path the save dialog returns on OK; the dialog never returns an empty name. */
  type ChosenPath = p: string | p != "" witness "untitled.txt"

  /** The answer of the save-file dialog. */
  datatype SaveDialog = Cancelled | Chosen(path: ChosenPath)

  /** `filePath` is `None` while the document has never been given a path. */
  datatype Document = Document(filePath: Option<string>, text: string, isModified: bool)

  /** The effect of a save: the document, the file system, and the returned flag. */
  datatype Saved = Saved(doc: Document, fs: FileSystem, ok: bool)

  /** The effect of an open: the document and the returned flag. */
  datatype Opened = Opened(doc: Document, ok: bool)

  /** The base name shown for a document without a path. */
  const Untitled: string := "Без имени"

  /** `HasName`: the path is set and not empty. */
  predicate HasName(d: Document) {
    d.filePath.Some? && d.filePath.value != ""
  }

  /** The constructor for a new document: no path, empty text, nothing to save. */
  function NewDocument(): (d: Document)
    ensures !HasName(d) && d.filePath == None
    ensures d.text == "" && !d.isModified
  {
    Document(None, "", false)
  }

  /** `Open`: read the whole file; on success the document shows its content
      under its path with nothing to save, on failure nothing changes. */
  function Open(d: Document, path: string, fs: FileSystem): (r: Opened)
    ensures r.ok <==> path in fs
    ensures path == "" ==> !r.ok
    ensures r.ok ==> r.doc.filePath == Some(path) && r.doc.text == fs[path] && !r.doc.isModified
    ensures !r.ok ==> r.doc == d
  {
    if path in fs then Opened(Document(Some(path), fs[path], false), true)
    else Opened(d, false)
  }

  /** The constructor for an existing file: a new document that then opens `path`. */
  function FromFile(path: string, fs: FileSystem): (d: Document)
    ensures !d.isModified
    ensures HasName(d) <==> path in fs
    ensures path in fs ==> d.filePath == Some(path) && d.text == fs[path]
    ensures path !in fs ==> d == NewDocument()
  {
    Open(NewDocument(), path, fs).doc
  }

  /** The display name: the file name, or the placeholder for a document
      without a path, followed by a star while there are unsaved changes. */
  function ShortName(d: Document): (r: string)
    ensures var base := if HasName(d) then FileName(d.filePath.value) else Untitled;
            && |r| >= |base| && r[..|base|] == base
            && |r| == |base| + (if d.isModified then 1 else 0)
            && (d.isModified ==> r[|base|] == '*')
  {
    var base := if HasName(d) then FileName(d.filePath.value) else Untitled;
    if d.isModified then
      var starred := base + "*";
      assert starred[..|base|] == base && starred[|base|] == '*';
      starred
    else
      assert base[..|base|] == base;
      base
  }

  /** The try block of `Save` for a document with a name: write the text to
      the path; success clears the flag. A failure is taken to leave the
      document and the files as they were. */
  function Write(d: Document, fs: FileSystem, writeOk: bool): Saved
    requires HasName(d)
  {
    if writeOk then Saved(d.(isModified := false), fs[d.filePath.value := d.text], true)
    else Saved(d, fs, false)
  }

  /** The interactive `SaveAs()`: ask for a destination; a cancelled dialog
      changes nothing, a chosen one becomes the path before the write is
      attempted, so the path stays even when the write fails. */
  function SaveAs(d: Document, fs: FileSystem, dialog: SaveDialog, writeOk: bool): (r: Saved)
    ensures dialog.Cancelled? ==> r == Saved(d, fs, false)
    ensures dialog.Chosen? ==> r.doc.filePath == Some(dialog.path) && r.ok == writeOk
    ensures r.doc.text == d.text
    ensures r.ok ==> dialog.Chosen? && !r.doc.isModified && r.fs == fs[dialog.path := d.text]
    ensures !r.ok ==> r.fs == fs && r.doc.isModified == d.isModified
  {
    match dialog
    case Cancelled => Saved(d, fs, false)
    case Chosen(p) => Write(d.(filePath := Some(p)), fs, writeOk)
  }

  /** `Save`: a document without a name goes through the save dialog; one
      with a name writes its text to its path. */
  function Save(d: Document, fs: FileSystem, dialog: SaveDialog, writeOk: bool): (r: Saved)
    ensures !HasName(d) ==> r == SaveAs(d, fs, dialog, writeOk)
    ensures HasName(d) ==> r.doc.filePath == d.filePath && r.ok == writeOk
    ensures r.doc.text == d.text
    ensures r.ok ==> HasName(r.doc) && !r.doc.isModified
                     && r.fs == fs[r.doc.filePath.value := d.text]
    ensures !r.ok ==> r.fs == fs && r.doc.isModified == d.isModified
  {
    if !HasName(d) then SaveAs(d, fs, dialog, writeOk)
    else Write(d, fs, writeOk)
  }

  /** `SaveAs(newFilePath)`: take the given path and save. A non-empty path is
      written without asking; an empty one leaves the document without a name,
      so the save dialog is shown after all. */
  function SaveAsPath(d: Document, newPath: string, fs: FileSystem, dialog: SaveDialog, writeOk: bool): (r: Saved)
    ensures newPath != "" ==> r.doc.filePath == Some(newPath) && r.ok == writeOk
    ensures newPath == "" ==> r == SaveAs(d.(filePath := Some(newPath)), fs, dialog, writeOk)
    ensures r.doc.text == d.text
    ensures r.ok ==> HasName(r.doc) && !r.doc.isModified
                     && r.fs == fs[r.doc.filePath.value := d.text]
    ensures !r.ok ==> r.fs == fs && r.doc.isModified == d.isModified
  {
    Save(d.(filePath := Some(newPath)), fs, dialog, writeOk)
  }

  /** A display name ends in a star. */
  predicate EndsInStar(s: string) {
    |s| > 0 && s[|s| - 1] == '*'
  }

  // ---------------------------------------------------------------------------
  // Properties relating the operations

  /** The star marks unsaved changes exactly, as long as the file name itself
      does not end in a star (Windows file names cannot contain one). */
  lemma StarMarksUnsaved(d: Document)
    requires HasName(d) ==> !EndsInStar(FileName(d.filePath.value))
    ensures EndsInStar(ShortName(d)) <==> d.isModified
  {
    var base := if HasName(d) then FileName(d.filePath.value) else Untitled;
    var r := ShortName(d);
    if !d.isModified {
      assert r == base;
      if !HasName(d) {
        assert Untitled[|Untitled| - 1] == 'и';
      }
    }
  }

  /** Saving a document just opened writes back exactly what was read: the
      file system and the document are unchanged. */
  lemma OpenSaveRoundTrip(d: Document, path: string, fs: FileSystem, dialog: SaveDialog)
    requires path in fs
    ensures var doc := Open(d, path, fs).doc;
            Save(doc, fs, dialog, true) == Saved(doc, fs, true)
  {
    var doc := Open(d, path, fs).doc;
    assert fs[path := fs[path]] == fs;
  }

  /** Saving twice in a row with a successful write is the same as saving once. */
  lemma SaveIdempotent(d: Document, fs: FileSystem, dialog: SaveDialog, dialog2: SaveDialog)
    requires Save(d, fs, dialog, true).ok
    ensures var once := Save(d, fs, dialog, true);
            Save(once.doc, once.fs, dialog2, true) == once
  {
    var once := Save(d, fs, dialog, true);
    var p := once.doc.filePath.value;
    assert once.fs[p := d.text] == once.fs;
  }

  /** An unnamed document is saved exactly as if `SaveAs(path)` had been
      called with the path the dialog returns. */
  lemma SaveUnnamedIsSaveAsPath(d: Document, fs: FileSystem, p: ChosenPath, dialog: SaveDialog, writeOk: bool)
    requires !HasName(d)
    ensures Save(d, fs, Chosen(p), writeOk) == SaveAsPath(d, p, fs, dialog, writeOk)
  {
  }

  /** The first-save scenario: a new document, typed into, saved through the
      dialog to "/tmp/out.txt". */
  lemma FirstSaveScenario(fs: FileSystem)
    ensures var typed := NewDocument().(text := "hello", isModified := true);
            var r := Save(typed, fs, Chosen("/tmp/out.txt"), true);
            && r.ok
            && r.fs["/tmp/out.txt"] == "hello"
            && r.doc == Document(Some("/tmp/out.txt"), "hello", false)
  {
  }

  /** Opening a missing file reports failure and leaves path and text as they were. */
  lemma OpenMissingScenario(d: Document, fs: FileSystem)
    requires "/missing.txt" !in fs
    ensures Open(d, "/missing.txt", fs) == Opened(d, false)
  {
  }
}

=== FILE: editor.dfy ===
/** The menu commands of Editor.cs, acting on the selected tab of the main
    window. Each command that needs a tab does nothing when there is none. */
module Editor {
  import opened Optional
  import opened Documents
  import opened MainForm

  /** The selected tab's index, when one is selected and exists. */
  function Active(app: App): (r: Option<nat>)
    ensures r.Some? ==> r.value < |app.tabs| && app.selected == r
    ensures r.None? ==> app.selected.None? || app.selected.value >= |app.tabs|
  {
    if app.selected.Some? && app.selected.value < |app.tabs| then app.selected else None
  }

  /** `NewDoc`: a new tab with a new, unnamed document. */
  function NewDoc(app: App): (r: App)
    ensures |r.tabs| == |app.tabs| + 1 && r.tabs[..|app.tabs|] == app.tabs
    ensures r.tabs[|app.tabs|] == NewDocument()
    ensures r.selected == Some(|app.tabs|)
    ensures r.recent == app.recent && r.fs == app.fs
    ensures Valid(app) ==> Valid(r)
  {
    CreateNewTab(app, "")
  }

  /** `OpenDoc`: open the file the open dialog returns; a cancelled dialog does nothing. */
  function OpenDoc(app: App, chosen: Option<string>): (r: App)
    ensures chosen.None? ==> r == app
    ensures chosen.Some? ==> r == OpenFile(app, chosen.value)
    ensures chosen.Some? && chosen.value != "" && chosen.value in app.fs ==>
              r.selected.Some? && r.selected.value < |r.tabs| && IsOpenAs(r.tabs[r.selected.value], chosen.value)
    ensures Valid(app) ==> Valid(r)
  {
    match chosen
    case None => app
    case Some(f) => OpenFile(app, f)
  }

  /** `CloseActiveDoc`: run the close protocol on the selected tab. */
  function CloseActiveDoc(app: App, reply: CloseReply): (r: App)
    ensures |app.tabs| == 0 || Active(app).None? ==> r == app
    ensures Active(app).Some? ==> r == CloseTab(app, Active(app), reply).app
    ensures r.recent == app.recent
    ensures |r.tabs| == |app.tabs| || |r.tabs| == |app.tabs| - 1
    ensures Valid(app) ==> Valid(r)
  {
    if |app.tabs| == 0 then app
    else match Active(app)
      case None => app
      case Some(i) => CloseTab(app, Some(i), reply).app
  }

  /** Store the outcome of a save in the selected tab and, when the save
      succeeded, put the document's path on the recent list. */
  function AfterSave(app: App, i: nat, saved: Saved): (r: App)
    requires i < |app.tabs|
    ensures r.tabs == app.tabs[i := saved.doc] && r.selected == app.selected && r.fs == saved.fs
    ensures !saved.ok ==> r.recent == app.recent
    ensures saved.ok && HasName(saved.doc) && saved.doc.filePath.value in saved.fs ==>
              |r.recent.paths| > 0 && r.recent.paths[0] == saved.doc.filePath.value
    ensures Valid(app) ==> Valid(r)
  {
    var stored := app.(tabs := app.tabs[i := saved.doc], fs := saved.fs);
    // a null path reaches UpdateRecentFiles as the empty string does
    var path := match saved.doc.filePath case None => "" case Some(p) => p;
    if saved.ok then UpdateRecentFiles(stored, path)
    else stored
  }

  /** `SaveDoc`: save the selected document (through the dialog if it has no
      name); only a successful save puts it on the recent list. */
  function SaveDoc(app: App, dialog: SaveDialog, writeOk: bool): (r: App)
    ensures Active(app).None? ==> r == app
    ensures Active(app).Some? ==>
      var i := Active(app).value;
      var saved := Save(app.tabs[i], app.fs, dialog, writeOk);
      && r.tabs == app.tabs[i := saved.doc] && r.fs == saved.fs && r.selected == app.selected
      && (saved.ok ==> |r.recent.paths| > 0 && r.recent.paths[0] == saved.doc.filePath.value
                       && !r.tabs[i].isModified
                       && r.recent == UpdateRecentFiles(app.(fs := saved.fs), saved.doc.filePath.value).recent)
      && (!saved.ok ==> r.recent == app.recent)
    ensures Valid(app) ==> Valid(r)
  {
    if |app.tabs| == 0 then app
    else match Active(app)
      case None => app
      case Some(i) => AfterSave(app, i, Save(app.tabs[i], app.fs, dialog, writeOk))
  }

  /** `SaveDocAs`: save the selected document under the path the dialog
      returns; only a successful save puts it on the recent list. */
  function SaveDocAs(app: App, dialog: SaveDialog, writeOk: bool): (r: App)
    ensures Active(app).None? ==> r == app
    ensures Active(app).Some? ==>
      var i := Active(app).value;
      var saved := SaveAs(app.tabs[i], app.fs, dialog, writeOk);
      && r.tabs == app.tabs[i := saved.doc] && r.fs == saved.fs && r.selected == app.selected
      && (saved.ok ==> |r.recent.paths| > 0 && r.recent.paths[0] == dialog.path
                       && !r.tabs[i].isModified
                       && r.recent == UpdateRecentFiles(app.(fs := saved.fs), dialog.path).recent)
      && (!saved.ok ==> r.recent == app.recent)
    ensures Valid(app) ==> Valid(r)
  {
    if |app.tabs| == 0 then app
    else match Active(app)
      case None => app
      case Some(i) => AfterSave(app, i, SaveAs(app.tabs[i], app.fs, dialog, writeOk))
  }

  /** `OpenDocByRecentIndex`: read the recent list (which prunes vanished
      files) and open entry `index` when it is in range. */
  function OpenDocByRecentIndex(app: App, index: int): (r: App)
    ensures var (pruned, files) := GetRecentFilesList(app);
            && (0 <= index < |files| ==> r == OpenFile(pruned, files[index]))
            && (!(0 <= index < |files|) ==> r == pruned)
    ensures !(0 <= index < |GetRecentFilesList(app).1|) ==>
              r.tabs == app.tabs && r.selected == app.selected && r.fs == app.fs
    ensures Valid(app) ==> Valid(r)
  {
    var (pruned, files) := GetRecentFilesList(app);
    if 0 <= index < |files| then OpenFile(pruned, files[index]) else pruned
  }

  // ---------------------------------------------------------------------------
  // Properties of the commands

  /** Opening entry `index` of the recent list leaves a tab holding that file
      selected: either the tab that already held it or a new one. */
  lemma OpenRecentSelectsIt(app: App, index: int)
    requires Valid(app)
    requires 0 <= index < |GetRecentFilesList(app).1|
    ensures var f := GetRecentFilesList(app).1[index];
            var r := OpenDocByRecentIndex(app, index);
            r.selected.Some? && r.selected.value < |r.tabs| && IsOpenAs(r.tabs[r.selected.value], f)
  {
    var (pruned, files) := GetRecentFilesList(app);
    assert files[index] in pruned.recent.paths;
  }

  /** Opening a file twice gives one tab: the second open only selects it. */
  lemma OpenTwiceOneTab(app: App, f: string)
    requires f != "" && f in app.fs
    ensures var once := OpenFile(app, f);
            OpenFile(once, f).tabs == once.tabs
  {
  }

  /** The commands that need a tab change nothing when no tab exists. */
  lemma NoTabNoEffect(app: App, reply: CloseReply, dialog: SaveDialog, writeOk: bool)
    requires |app.tabs| == 0
    ensures CloseActiveDoc(app, reply) == app
    ensures SaveDoc(app, dialog, writeOk) == app
    ensures SaveDocAs(app, dialog, writeOk) == app
  {
  }
}

=== FILE: main_form.dfy ===
/** The main window's state logic (MainForm.cs): the tabs, each holding one
    document, the selected tab, the enabled state of the Save/Save As/Close
    menu items, the recent-files list and the file system. Dialog answers and
    write outcomes are parameters. `DocOpened` of Editor.cs is defined here
    too, because `OpenFile` calls it and Editor.cs in turn calls `OpenFile`. */
module MainForm {
  import opened Optional
  import opened Paths
  import opened Documents
  import RecentFiles

  /** The answer of the "save changes?" message box. */
  datatype Answer = Yes | No | Cancel

  /** Everything the user answers while one tab is being closed: the message
      box, then (if the document has no name) the save dialog, and whether
      the write succeeds. */
  datatype CloseReply = CloseReply(answer: Answer, dialog: SaveDialog, writeOk: bool)

  /** Closing `d` with `reply` fails: the document has unsaved changes and the
      user either cancels or answers Yes to a save that fails, because the
      write fails or an unnamed document's save dialog is cancelled. */
  predicate Refuses(d: Document, reply: CloseReply) {
    && d.isModified
    && (|| reply.answer == Cancel
        || (reply.answer == Yes && !(reply.writeOk && (HasName(d) || reply.dialog.Chosen?))))
  }

  /** The files after `d` is closed with `reply`: only a Yes on a document with
      unsaved changes writes anything. */
  function PromptEffect(d: Document, reply: CloseReply, fs: FileSystem): FileSystem {
    if d.isModified && reply.answer == Yes then Save(d, fs, reply.dialog, reply.writeOk).fs else fs
  }

  /** The files after the documents `tabs` are closed one after another with
      the matching replies. */
  function SavedFiles(tabs: seq<Document>, replies: seq<CloseReply>, fs: FileSystem): FileSystem
    requires |replies| == |tabs|
    decreases |tabs|
  {
    if tabs == [] then fs
    else SavedFiles(tabs[1..], replies[1..], PromptEffect(tabs[0], replies[0], fs))
  }

  /** The window: tabs in strip order, the selected tab's index, whether the
      Save/Save As/Close items are enabled, the recent list and the files. */
  datatype App = App(
    tabs: seq<Document>,
    selected: Option<nat>,
    menuEnabled: bool,
    recent: RecentFiles.RecentList,
    fs: FileSystem)

  /** The result of `CloseTab`: the window afterwards and the returned flag. */
  datatype Closed = Closed(app: App, closed: bool)

  /** The result of closing the window: the window afterwards and `e.Cancel`. */
  datatype Closing = Closing(app: App, cancel: bool)

  /** The result of `DocOpened`: the window afterwards and the returned flag. */
  datatype Found = Found(app: App, found: bool)

  /** What holds between events: a tab is selected exactly when there is one,
      the menu items are enabled exactly when there is a tab, and the recent
      list keeps its own invariant. */
  predicate Valid(app: App) {
    && (app.selected.Some? <==> |app.tabs| > 0)
    && (app.selected.Some? ==> app.selected.value < |app.tabs|)
    && (app.menuEnabled <==> |app.tabs| > 0)
    && RecentFiles.Valid(app.recent)
  }

  /** The document is named `f`, compared case-insensitively. */
  predicate IsOpenAs(d: Document, f: string) {
    HasName(d) && SameFile(d.filePath.value, f)
  }

  /** The file system's paths, as the existence test `File.Exists` sees them. */
  function OnDisk(app: App): set<string> {
    app.fs.Keys
  }

  /** `UpdateMenuState`: Save, Save As and Close are enabled exactly when a tab exists. */
  function UpdateMenuState(app: App): (r: App)
    ensures r.menuEnabled <==> |r.tabs| > 0
    ensures r.tabs == app.tabs && r.selected == app.selected
    ensures r.recent == app.recent && r.fs == app.fs
  {
    app.(menuEnabled := |app.tabs| > 0)
  }

  /** The tabs without tab `i`. */
  function Removed(tabs: seq<Document>, i: nat): (r: seq<Document>)
    requires i < |tabs|
    ensures |r| == |tabs| - 1
    ensures forall k :: 0 <= k < i ==> r[k] == tabs[k]
    ensures forall k :: i <= k < |r| ==> r[k] == tabs[k + 1]
  {
    tabs[..i] + tabs[i + 1..]
  }

  /** `TabPages.Remove` followed by `UpdateMenuState`. The tab control keeps
      the selected tab selected when another one goes; when the selected tab
      itself goes, it selects the first tab. */
  function RemoveTab(app: App, i: nat): (r: App)
    requires i < |app.tabs|
    ensures r.tabs == Removed(app.tabs, i)
    ensures r.recent == app.recent && r.fs == app.fs
    ensures Valid(app) ==> Valid(r)
  {
    var tabs := Removed(app.tabs, i);
    var selected :=
      if tabs == [] then None
      else match app.selected
        case None => None
        case Some(s) => if s < i then Some(s) else if s == i then Some(0) else Some(s - 1);
    UpdateMenuState(app.(tabs := tabs, selected := selected))
  }

  /** `CloseTab`: a tab without unsaved changes closes at once. Otherwise the
      tab is selected and the user asked: Cancel keeps it, No closes it
      without saving, Yes saves and closes only if the save succeeds. */
  function CloseTab(app: App, tab: Option<nat>, reply: CloseReply): (r: Closed)
    requires tab.Some? ==> tab.value < |app.tabs|
    ensures tab.None? ==> r == Closed(app, true)
    ensures tab.Some? ==>
      var i := tab.value;
      var d := app.tabs[i];
      var saved := Save(d, app.fs, reply.dialog, reply.writeOk);
      && (r.closed <==> !d.isModified || reply.answer == No || (reply.answer == Yes && saved.ok))
      && (r.closed ==> r.app.tabs == Removed(app.tabs, i))
      && (!r.closed ==> |r.app.tabs| == |app.tabs| && r.app.selected == Some(i)
                        && forall k :: 0 <= k < |app.tabs| && k != i ==> r.app.tabs[k] == app.tabs[k])
      && (d.isModified && reply.answer == Yes ==> r.app.fs == saved.fs)
      && (!d.isModified || reply.answer != Yes ==> r.app.fs == app.fs)
      && (d.isModified && reply.answer == Cancel ==> r.app.tabs == app.tabs)
      && (d.isModified && reply.answer == Yes && !saved.ok ==> r.app.tabs[i] == saved.doc)
    ensures r.app.recent == app.recent
    ensures Valid(app) ==> Valid(r.app)
  {
    match tab
    case None => Closed(app, true)
    case Some(i) =>
      var d := app.tabs[i];
      if !d.isModified then Closed(RemoveTab(app, i), true)
      else
        var prompted := app.(selected := Some(i));
        match reply.answer
        case Cancel => Closed(prompted, false)
        case No => Closed(RemoveTab(prompted, i), true)
        case Yes =>
          var saved := Save(d, app.fs, reply.dialog, reply.writeOk);
          var after := prompted.(tabs := app.tabs[i := saved.doc], fs := saved.fs);
          if !saved.ok then Closed(after, false)
          else Closed(RemoveTab(after, i), true)
  }

  /** One step of the closing loop: `CloseTab` on the first remaining tab.
      On success the others remain in order; on refusal the tab was
      modified, still is, and the others are untouched. */
  function CloseFirstTab(app: App, reply: CloseReply): (c: Closed)
    requires |app.tabs| > 0
    ensures c.closed ==> c.app.tabs == app.tabs[1..]
    ensures !c.closed ==> && |c.app.tabs| == |app.tabs| && c.app.tabs[1..] == app.tabs[1..]
                          && app.tabs[0].isModified && c.app.tabs[0].isModified
    ensures !app.tabs[0].isModified ==> c.closed
    ensures c.closed <==> !Refuses(app.tabs[0], reply)
    ensures c.app.fs == PromptEffect(app.tabs[0], reply, app.fs)
    ensures c.app.recent == app.recent
    ensures Valid(app) ==> Valid(c.app)
  {
    var c := CloseTab(app, Some(0), reply);
    assert !c.closed ==> c.app.tabs[1..] == app.tabs[1..];
    c
  }

  /** `r` is what closing `tabs` in order with `replies`, from the files `fs`,
      may give: it is cancelled exactly when some tab refuses, it stops at the
      first tab that refuses, and the files are those written by the prompts
      of the tabs before the stopping point. On refusal the tabs before the
      stopping point are gone, the refusing tab remains with unsaved changes,
      and the tabs after it are untouched. */
  predicate ClosesUntilRefusal(tabs: seq<Document>, replies: seq<CloseReply>, fs: FileSystem, r: Closing)
    requires |replies| == |tabs|
  {
    && |r.app.tabs| <= |tabs|
    && (r.cancel <==> exists k :: 0 <= k < |tabs| && Refuses(tabs[k], replies[k]))
    && var n := |tabs| - |r.app.tabs|;
       && (r.cancel ==> && n < |tabs| && Refuses(tabs[n], replies[n])
                        && r.app.tabs[0].isModified && r.app.tabs[1..] == tabs[n + 1..])
       && (forall j :: 0 <= j < n ==> !Refuses(tabs[j], replies[j]))
       && r.app.fs == SavedFiles(tabs[..n], replies[..n], fs)
  }

  /** The loop of `MainForm_FormClosing` over the snapshot of the tabs: each
      snapshot tab is the first remaining one when its turn comes; the first
      refusal stops the loop. */
  function CloseInOrder(app: App, replies: seq<CloseReply>): (r: Closing)
    requires |replies| == |app.tabs|
    ensures !r.cancel ==> r.app.tabs == []
    ensures r.cancel ==> 0 < |r.app.tabs| <= |app.tabs|
    ensures (forall k :: 0 <= k < |app.tabs| ==> !app.tabs[k].isModified) ==> !r.cancel
    ensures ClosesUntilRefusal(app.tabs, replies, app.fs, r)
    ensures r.app.recent == app.recent
    ensures Valid(app) ==> Valid(r.app)
    decreases |app.tabs|
  {
    if app.tabs == [] then
      assert app.tabs[..0] == [] && replies[..0] == [];
      Closing(app, false)
    else
      var c := CloseFirstTab(app, replies[0]);
      if !c.closed then
        RefusedFirst(app, replies, c);
        Closing(c.app, true)
      else
        var r := CloseInOrder(c.app, replies[1..]);
        ClosedFirstShift(app, replies, c.app, r);
        r
  }

  /** A loop whose first tab refuses stops there, with the files unchanged. */
  lemma RefusedFirst(app: App, replies: seq<CloseReply>, c: Closed)
    requires |replies| == |app.tabs| > 0 && |c.app.tabs| == |app.tabs|
    requires c.app.tabs[0].isModified && c.app.tabs[1..] == app.tabs[1..]
    requires Refuses(app.tabs[0], replies[0])
    requires c.app.fs == PromptEffect(app.tabs[0], replies[0], app.fs)
    ensures ClosesUntilRefusal(app.tabs, replies, app.fs, Closing(c.app, true))
  {
    assert app.tabs[..0] == [] && replies[..0] == [];
  }

  /** What the rest of the loop found after the first tab closed, seen from
      the whole snapshot. */
  lemma ClosedFirstShift(app: App, replies: seq<CloseReply>, rest: App, r: Closing)
    requires |replies| == |app.tabs| > 0 && rest.tabs == app.tabs[1..]
    requires !Refuses(app.tabs[0], replies[0])
    requires rest.fs == PromptEffect(app.tabs[0], replies[0], app.fs)
    requires ClosesUntilRefusal(rest.tabs, replies[1..], rest.fs, r)
    ensures ClosesUntilRefusal(app.tabs, replies, app.fs, r)
  {
    var n := |app.tabs| - |r.app.tabs|;
    assert n >= 1;
    assert app.tabs[..n][1..] == rest.tabs[..n - 1];
    assert replies[..n][1..] == replies[1..][..n - 1];
    if r.cancel {
      var k :| 0 <= k < |rest.tabs| && Refuses(rest.tabs[k], replies[1..][k]);
      assert Refuses(app.tabs[k + 1], replies[k + 1]);
      assert app.tabs[n] == rest.tabs[n - 1] && replies[n] == replies[1..][n - 1];
      assert rest.tabs[n..] == app.tabs[n + 1..];
    }
    if exists k :: 0 <= k < |app.tabs| && Refuses(app.tabs[k], replies[k]) {
      var k :| 0 <= k < |app.tabs| && Refuses(app.tabs[k], replies[k]);
      assert Refuses(rest.tabs[k - 1], replies[1..][k - 1]);
    }
    forall j | 0 <= j < n
      ensures !Refuses(app.tabs[j], replies[j])
    {
      if j > 0 {
        assert app.tabs[j] == rest.tabs[j - 1] && replies[j] == replies[1..][j - 1];
      }
    }
  }

  /** `MainForm_FormClosing`: close every tab in order; if one refuses, cancel
      the shutdown and leave the recent list alone, otherwise persist it. */
  function FormClosing(app: App, replies: seq<CloseReply>): (r: Closing)
    requires |replies| == |app.tabs|
    ensures r.cancel ==> r.app.recent == app.recent && 0 < |r.app.tabs| <= |app.tabs|
    ensures !r.cancel ==> r.app.tabs == [] && r.app.recent == RecentFiles.SaveData(app.recent)
    ensures (forall k :: 0 <= k < |app.tabs| ==> !app.tabs[k].isModified) ==> !r.cancel
    ensures ClosesUntilRefusal(app.tabs, replies, app.fs, r)
    ensures Valid(app) ==> Valid(r.app)
  {
    var c := CloseInOrder(app, replies);
    if c.cancel then c
    else Closing(c.app.(recent := RecentFiles.SaveData(c.app.recent)), false)
  }

  /** The first tab holding a document named `f`, if any. */
  function FindOpen(tabs: seq<Document>, f: string): (r: Option<nat>)
    ensures r.Some? ==> r.value < |tabs| && IsOpenAs(tabs[r.value], f)
    ensures r.Some? ==> forall k :: 0 <= k < r.value ==> !IsOpenAs(tabs[k], f)
    ensures r.None? ==> forall k :: 0 <= k < |tabs| ==> !IsOpenAs(tabs[k], f)
    decreases |tabs|
  {
    if tabs == [] then None
    else if IsOpenAs(tabs[0], f) then Some(0)
    else match FindOpen(tabs[1..], f)
      case None => None
      case Some(k) => Some(k + 1)
  }

  /** `Editor.DocOpened`: whether some tab already holds `f` (compared
      case-insensitively); if so, the first such tab becomes selected. */
  function DocOpened(app: App, f: string): (r: Found)
    ensures r.found <==> exists k :: 0 <= k < |app.tabs| && IsOpenAs(app.tabs[k], f)
    ensures r.found ==> r.app.tabs == app.tabs && r.app.recent == app.recent && r.app.fs == app.fs
    ensures r.found ==> r.app.selected.Some? && r.app.selected.value < |app.tabs|
                        && IsOpenAs(app.tabs[r.app.selected.value], f)
                        && forall k :: 0 <= k < r.app.selected.value ==> !IsOpenAs(app.tabs[k], f)
    ensures !r.found ==> r.app == app
    ensures Valid(app) ==> Valid(r.app)
  {
    match FindOpen(app.tabs, f)
    case None => Found(app, false)
    case Some(k) => Found(app.(selected := Some(k)), true)
  }

  /** `CreateNewTab`: a new tab, selected, holding a new document or one read
      from `filePath`; a failed read leaves it a new, unnamed document. */
  function CreateNewTab(app: App, filePath: string): (r: App)
    ensures |r.tabs| == |app.tabs| + 1 && r.tabs[..|app.tabs|] == app.tabs
    ensures r.selected == Some(|app.tabs|) && r.menuEnabled
    ensures var d := r.tabs[|app.tabs|];
            && !d.isModified
            && (HasName(d) <==> filePath != "" && filePath in app.fs)
            && (HasName(d) ==> d == Document(Some(filePath), app.fs[filePath], false))
            && (!HasName(d) ==> d.text == "")
    ensures r.recent == app.recent && r.fs == app.fs
    ensures Valid(app) ==> Valid(r)
  {
    var doc := if filePath == "" then NewDocument() else FromFile(filePath, app.fs);
    UpdateMenuState(app.(tabs := app.tabs + [doc], selected := Some(|app.tabs|)))
  }

  /** `GetRecentFilesList`: the recent list after dropping vanished files. */
  function GetRecentFilesList(app: App): (r: (App, seq<string>))
    ensures r.0.recent.paths == r.1
    ensures forall x :: x in r.1 <==> x in app.recent.paths && x in app.fs
    ensures RecentFiles.IsSubsequence(r.1, app.recent.paths)
    ensures r.0.recent.saved == app.recent.saved
    ensures r.0 == app.(recent := r.0.recent)
    ensures Valid(app) ==> Valid(r.0)
  {
    var listed := RecentFiles.GetFilePaths(app.recent, OnDisk(app));
    (app.(recent := listed.list), listed.copy)
  }

  /** `UpdateRecentFiles`: put a non-empty path at the front of the recent list
      (which persists it), then refresh the menu, which prunes vanished files. */
  function UpdateRecentFiles(app: App, filePath: string): (r: App)
    ensures filePath == "" ==> r == app
    ensures r.tabs == app.tabs && r.selected == app.selected && r.fs == app.fs
    ensures filePath != "" && filePath in app.fs ==>
              |r.recent.paths| > 0 && r.recent.paths[0] == filePath
    ensures filePath != "" ==> r.recent.saved == RecentFiles.Add(app.recent, filePath).saved
    ensures filePath != "" ==> forall x :: x in r.recent.paths ==> x in app.fs
    ensures filePath != "" ==>
              var added := RecentFiles.Add(app.recent, filePath);
              && RecentFiles.IsSubsequence(r.recent.paths, added.paths)
              && (forall x :: x in r.recent.paths <==> x in added.paths && x in app.fs)
              && r.recent == RecentFiles.GetFilePaths(added, OnDisk(app)).list
    ensures Valid(app) ==> Valid(r)
  {
    if filePath == "" then app
    else
      var added := RecentFiles.Add(app.recent, filePath);
      var listed := RecentFiles.GetFilePaths(added, OnDisk(app));
      assert filePath in app.fs ==> filePath in listed.copy;
      if Valid(app) then
        RecentFiles.AddValid(app.recent, filePath);
        app.(recent := listed.list)
      else app.(recent := listed.list)
  }

  /** `OpenFile`: an already open file only selects its tab; otherwise a new
      tab reads the file, and a successful read puts it on the recent list. */
  function OpenFile(app: App, filePath: string): (r: App)
    ensures var already := exists k :: 0 <= k < |app.tabs| && IsOpenAs(app.tabs[k], filePath);
            && (already ==> r == DocOpened(app, filePath).app)
            && (!already ==> r.tabs == CreateNewTab(app, filePath).tabs && r.selected == Some(|app.tabs|))
            && (!already && filePath != "" && filePath in app.fs ==>
                  r.recent == UpdateRecentFiles(app, filePath).recent)
            && (!already && !(filePath != "" && filePath in app.fs) ==> r.recent == app.recent)
    ensures filePath != "" && filePath in app.fs ==>
              r.selected.Some? && r.selected.value < |r.tabs| && IsOpenAs(r.tabs[r.selected.value], filePath)
    ensures r.fs == app.fs
    ensures Valid(app) ==> Valid(r)
  {
    var found := DocOpened(app, filePath);
    if found.found then found.app
    else
      var created := CreateNewTab(app, filePath);
      var current := created.tabs[|app.tabs|];
      if HasName(current) then UpdateRecentFiles(created, current.filePath.value)
      else created
  }

  /** `RichTextBox_TextChanged` after the user edits the selected tab's text:
      the selected document takes the new text and is marked modified. */
  function TextChanged(app: App, newText: string): (r: App)
    ensures r.fs == app.fs && r.recent == app.recent && r.selected == app.selected
    ensures |r.tabs| == |app.tabs| && r.menuEnabled == app.menuEnabled
    ensures forall k :: 0 <= k < |app.tabs| && Some(k) != app.selected ==> r.tabs[k] == app.tabs[k]
    ensures app.selected.Some? && app.selected.value < |app.tabs| ==>
              var d := r.tabs[app.selected.value];
              d.isModified && d.text == newText && d.filePath == app.tabs[app.selected.value].filePath
    ensures Valid(app) ==> Valid(r)
  {
    match app.selected
    case None => app
    case Some(s) =>
      if s < |app.tabs| then
        var d := app.tabs[s].(text := newText);
        var marked := if !d.isModified then d.(isModified := true) else d;
        app.(tabs := app.tabs[s := marked])
      else app
  }

  /** The `MainForm` constructor: load the recent list from its settings file,
      prune it for the menu, and start with no tabs and the items disabled. */
  method Startup(saved: Option<seq<string>>, fs: FileSystem, readOk: bool) returns (app: App)
    ensures Valid(app)
    ensures app.tabs == [] && app.selected == None && !app.menuEnabled && app.fs == fs
    ensures app.recent.saved == saved
    ensures forall x :: x in app.recent.paths ==> x in fs
    ensures saved.Some? && readOk ==> app.recent.paths == RecentFiles.Loaded(saved.value, fs.Keys)
    ensures saved.None? || !readOk ==> app.recent.paths == []
  {
    var recent := RecentFiles.Create(saved, fs.Keys, readOk);
    RecentFiles.KeepAll(recent.paths, RecentFiles.Existing(fs.Keys));
    var listed := RecentFiles.GetFilePaths(recent, fs.Keys);
    RecentFiles.KeepAll(listed.list.paths, RecentFiles.Existing(fs.Keys));
    listed := RecentFiles.GetFilePaths(listed.list, fs.Keys);
    app := UpdateMenuState(App([], None, false, listed.list, fs));
  }

  // ---------------------------------------------------------------------------
  // Properties of the window's operations

  /** A second text change marks nothing new: the flag is already set. */
  lemma TextChangedTwice(app: App, t1: string, t2: string)
    ensures TextChanged(TextChanged(app, t1), t2) == TextChanged(app, t2)
  {
  }

  /** Closing a tab the user has not edited never asks and never fails. */
  lemma CloseUnmodified(app: App, i: nat, reply: CloseReply)
    requires i < |app.tabs| && !app.tabs[i].isModified
    ensures CloseTab(app, Some(i), reply) == Closed(RemoveTab(app, i), true)
  {
  }

  /** Cancelling the prompt leaves the document and the files as they were. */
  lemma CloseCancelled(app: App, i: nat, dialog: SaveDialog, writeOk: bool)
    requires i < |app.tabs| && app.tabs[i].isModified
    ensures var r := CloseTab(app, Some(i), CloseReply(Cancel, dialog, writeOk));
            !r.closed && r.app.tabs == app.tabs && r.app.fs == app.fs && r.app.tabs[i].isModified
  {
  }

  /** A failed shutdown persists nothing and keeps the tabs that were not
      reached; a complete one leaves no tab and the recent list persisted. */
  lemma ShutdownOutcome(app: App, replies: seq<CloseReply>)
    requires Valid(app) && |replies| == |app.tabs|
    ensures var r := FormClosing(app, replies);
            && (r.cancel ==> r.app.recent.saved == app.recent.saved && r.app.tabs[0].isModified)
            && (!r.cancel ==> r.app.recent.saved == Some(app.recent.paths) && !r.app.menuEnabled)
  {
  }

  /** Shutting down with one named, modified tab and a Yes whose write
      succeeds saves the document, closes the window and persists the recent
      list. */
  lemma ShutdownSavingOne(app: App, dialog: SaveDialog)
    requires |app.tabs| == 1 && app.tabs[0].isModified && HasName(app.tabs[0])
    ensures var d := app.tabs[0];
            var r := FormClosing(app, [CloseReply(Yes, dialog, true)]);
            && !r.cancel && r.app.tabs == []
            && r.app.fs == app.fs[d.filePath.value := d.text]
            && r.app.recent.saved == Some(app.recent.paths)
  {
    var replies := [CloseReply(Yes, dialog, true)];
    assert !Refuses(app.tabs[0], replies[0]);
    assert app.tabs[..1] == app.tabs && replies[..1] == replies;
  }

  /** When every answer is No, shutdown closes every tab and writes nothing
      but the recent list. */
  lemma ShutdownDiscardingAll(app: App, replies: seq<CloseReply>)
    requires |replies| == |app.tabs|
    requires forall k :: 0 <= k < |replies| ==> replies[k].answer == No
    ensures var r := CloseInOrder(app, replies);
            !r.cancel && r.app.fs == app.fs
  {
    DiscardingOutcome(app.tabs, replies, app.fs, CloseInOrder(app, replies));
  }

  /** A closing loop in which every answer is No completes and writes nothing. */
  lemma DiscardingOutcome(tabs: seq<Document>, replies: seq<CloseReply>, fs: FileSystem, r: Closing)
    requires |replies| == |tabs| && ClosesUntilRefusal(tabs, replies, fs, r)
    requires !r.cancel ==> r.app.tabs == []
    requires forall k :: 0 <= k < |replies| ==> replies[k].answer == No
    ensures !r.cancel && r.app.fs == fs
  {
    assert forall k :: 0 <= k < |tabs| ==> !Refuses(tabs[k], replies[k]);
    assert tabs[..|tabs|] == tabs && replies[..|tabs|] == replies;
    NoYesNoWrites(tabs, replies, fs);
  }

  /** Prompts none of which is answered Yes write nothing. */
  lemma {:induction false} NoYesNoWrites(tabs: seq<Document>, replies: seq<CloseReply>, fs: FileSystem)
    requires |replies| == |tabs|
    requires forall k :: 0 <= k < |replies| ==> replies[k].answer != Yes
    ensures SavedFiles(tabs, replies, fs) == fs
    decreases |tabs|
  {
    if tabs != [] {
      assert forall k :: 0 <= k < |replies[1..]| ==> replies[1..][k] == replies[k + 1];
      NoYesNoWrites(tabs[1..], replies[1..], fs);
    }
  }

}

=== FILE: optional.dfy ===
/** A value that may be absent; stands for a reference that may be null. */
module Optional {

  datatype Option<+T> = None | Some(value: T)
}

=== FILE: paths.dfy ===
/** Path strings as the editor compares, filters and displays them. */
module Paths {

  /** Folding of one character for ordinal, case-insensitive comparison.
      ASCII letters fold to upper case; every other character folds to itself
      (the rest of the Unicode case table is not modelled). */
  function Fold(c: char): char {
    if 'a' <= c <= 'z' then (c as int - 32) as char else c
  }

  /** The comparison key of a path: two paths name the same file exactly when
      their keys are equal. */
  function Key(s: string): string {
    if s == [] then [] else [Fold(s[0])] + Key(s[1..])
  }

  /** The key folds a path character by character. */
  lemma {:induction false} KeyAt(s: string, i: nat)
    requires i < |s|
    ensures |Key(s)| == |s| && Key(s)[i] == Fold(s[i])
    decreases |s|
  {
    if i > 0 {
      KeyAt(s[1..], i - 1);
    } else if |s| > 1 {
      KeyAt(s[1..], 0);
    }
  }

  /** Case-insensitive path equality (`OrdinalIgnoreCase`). */
  predicate SameFile(a: string, b: string) {
    Key(a) == Key(b)
  }

  /** The characters that `char.IsWhiteSpace` accepts. */
  predicate IsWhiteSpace(c: char) {
    var n := c as int;
    || 0x09 <= n <= 0x0D
    || n == 0x20 || n == 0x85 || n == 0xA0 || n == 0x1680
    || 0x2000 <= n <= 0x200A
    || n == 0x2028 || n == 0x2029 || n == 0x202F || n == 0x205F || n == 0x3000
  }

  /** `string.IsNullOrWhiteSpace` for a non-null string: empty or only white space. */
  predicate IsBlank(s: string) {
    forall i :: 0 <= i < |s| ==> IsWhiteSpace(s[i])
  }

  /** The characters at which `Path.GetFileName` cuts a path. */
  predicate IsSeparator(c: char) {
    c == '\\' || c == '/' || c == ':'
  }

  /** `Path.GetFileName`: the longest suffix of `p` that holds no separator. */
  function FileName(p: string): (r: string)
    ensures |r| <= |p| && r == p[|p| - |r|..]
    ensures forall i :: 0 <= i < |r| ==> !IsSeparator(r[i])
    ensures |r| < |p| ==> IsSeparator(p[|p| - |r| - 1])
    decreases |p|
  {
    if p == [] then []
    else if IsSeparator(p[|p| - 1]) then []
    else FileName(p[..|p| - 1]) + [p[|p| - 1]]
  }
}

=== FILE: recent_files.dfy ===
/** The most-recently-used file list (RecentList.cs): at most five paths, most
    recent first, no two naming the same file case-insensitively, mirrored in
    a settings file of one path per line. */
module RecentFiles {
  import opened Optional
  import opened Paths

  const MaxRecentFiles: nat := 5

  /** `paths` is the in-memory list; `saved` holds the lines of the settings
      file, `None` while that file does not exist. */
  datatype RecentList = RecentList(paths: seq<string>, saved: Option<seq<string>>)

  /** The result of `GetFilePaths`: the list after pruning and the copy handed out. */
  datatype Listed = Listed(list: RecentList, copy: seq<string>)

  /** No two entries name the same file. */
  predicate Unique(s: seq<string>) {
    forall i, j :: 0 <= i < j < |s| ==> !SameFile(s[i], s[j])
  }

  /** What every reachable list satisfies: bounded, duplicate-free, no empty entry. */
  predicate Valid(r: RecentList) {
    && |r.paths| <= MaxRecentFiles
    && Unique(r.paths)
    && forall x :: x in r.paths ==> x != ""
  }

  /** `a` is obtained from `b` by deleting entries, keeping the order of the rest. */
  predicate IsSubsequence(a: seq<string>, b: seq<string>)
    decreases |b|
  {
    || a == []
    || (&& b != []
        && (|| IsSubsequence(a, b[..|b| - 1])
            || (a[|a| - 1] == b[|b| - 1] && IsSubsequence(a[..|a| - 1], b[..|b| - 1]))))
  }

  /** LINQ `Take(n)`. */
  function Take(s: seq<string>, n: nat): seq<string> {
    if |s| <= n then s else s[..n]
  }

  /** LINQ `Where(f)` / `List.RemoveAll(!f)`: the entries that satisfy `f`, in order. */
  function Keep(s: seq<string>, f: string -> bool): (r: seq<string>)
    ensures |r| <= |s|
    ensures forall x :: x in r <==> x in s && f(x)
    ensures IsSubsequence(r, s)
    decreases |s|
  {
    if s == [] then []
    else
      var init := Keep(s[..|s| - 1], f);
      if f(s[|s| - 1]) then init + [s[|s| - 1]] else init
  }

  /** The filter of `Add`: entries that do not name the same file as `p`. */
  function OtherThan(p: string): string -> bool {
    x => !SameFile(x, p)
  }

  /** The filter of `GetFilePaths`: entries that exist on disk. */
  function Existing(onDisk: set<string>): string -> bool {
    x => x in onDisk
  }

  /** The filter of `LoadData`: non-blank lines that exist on disk. */
  function Usable(onDisk: set<string>): string -> bool {
    x => !IsBlank(x) && x in onDisk
  }

  /** LINQ `Distinct(StringComparer.OrdinalIgnoreCase)`: every entry whose file
      has not occurred earlier in `s`, in order. */
  function Distinct(s: seq<string>): (r: seq<string>)
    ensures forall x :: x in r ==> x in s
    ensures forall i :: 0 <= i < |s| && FirstOccurrence(s, i) ==> s[i] in r
    ensures IsSubsequence(r, s)
    decreases |s|
  {
    if s == [] then []
    else
      var prefix := s[..|s| - 1];
      var init := Distinct(prefix);
      var last := s[|s| - 1];
      assert s == prefix + [last];
      FirstOccurrenceInPrefix(s);
      if FirstOccurrence(s, |s| - 1) then init + [last] else init
  }

  /** No entry before `s[i]` names the same file. */
  predicate FirstOccurrence(s: seq<string>, i: nat)
    requires i < |s|
  {
    forall j :: 0 <= j < i ==> !SameFile(s[j], s[i])
  }

  /** The index of the first entry of `s` that names the same file as `x`,
      searching from the front; `|s|` when there is none. */
  function FirstIndexOf(s: seq<string>, x: string): (i: nat)
    ensures i <= |s|
    ensures i < |s| ==> SameFile(s[i], x)
    ensures forall j :: 0 <= j < i ==> !SameFile(s[j], x)
    decreases |s|
  {
    if s == [] then 0
    else if SameFile(s[0], x) then 0
    else 1 + FirstIndexOf(s[1..], x)
  }

  /** A first occurrence in `s` is a first occurrence in `s` without its last entry. */
  lemma FirstOccurrenceInPrefix(s: seq<string>)
    requires s != []
    ensures forall i :: 0 <= i < |s| - 1 && FirstOccurrence(s, i) ==> FirstOccurrence(s[..|s| - 1], i)
  {
    forall i | 0 <= i < |s| - 1 && FirstOccurrence(s, i)
      ensures FirstOccurrence(s[..|s| - 1], i)
    {
      assert forall j :: 0 <= j <= i ==> s[..|s| - 1][j] == s[j];
    }
  }

  /** The keys of all entries of `t`; the set LINQ's `Distinct` remembers. */
  function KeySet(t: seq<string>): set<string> {
    set j | 0 <= j < |t| :: Key(t[j])
  }

  /** The `LoadData` pipeline as a whole: usable lines, first occurrences, at most five. */
  function Loaded(lines: seq<string>, onDisk: set<string>): seq<string> {
    Take(Distinct(Keep(lines, Usable(onDisk))), MaxRecentFiles)
  }

  /** `Add`: move `fileName` to the front, dropping any other spelling of it,
      keep at most five entries, and persist the list. An empty name is ignored. */
  function Add(r: RecentList, fileName: string): (r': RecentList)
    ensures fileName == "" ==> r' == r
    ensures fileName != "" ==>
      && 0 < |r'.paths| <= MaxRecentFiles
      && r'.paths[0] == fileName
      && (forall i :: 1 <= i < |r'.paths| ==> !SameFile(r'.paths[i], fileName))
      && r'.saved == Some(r'.paths)
  {
    if fileName == "" then r
    else
      var rest := Keep(r.paths, OtherThan(fileName));
      var paths := Take([fileName] + rest, MaxRecentFiles);
      assert forall i :: 1 <= i < |paths| ==> paths[i] in rest;
      RecentList(paths, Some(paths))
  }

  /** `SaveData`: the settings file now holds the current list. */
  function SaveData(r: RecentList): (r': RecentList)
    ensures r'.paths == r.paths && r'.saved == Some(r.paths)
  {
    r.(saved := Some(r.paths))
  }

  /** `GetFilePaths`: drop the entries whose file no longer exists and hand out
      a copy of what is left; the settings file is not rewritten. */
  function GetFilePaths(r: RecentList, onDisk: set<string>): (res: Listed)
    ensures res.list.paths == res.copy && res.list.saved == r.saved
    ensures forall x :: x in res.copy <==> x in r.paths && x in onDisk
    ensures IsSubsequence(res.copy, r.paths)
    ensures Valid(r) ==> Valid(res.list)
    ensures |r.paths| > 0 && r.paths[0] in onDisk ==> |res.copy| > 0 && res.copy[0] == r.paths[0]
  {
    var kept := Keep(r.paths, Existing(onDisk));
    KeepUnique(r.paths, Existing(onDisk));
    if |r.paths| > 0 then
      assert r.paths == [r.paths[0]] + r.paths[1..];
      KeepConcat([r.paths[0]], r.paths[1..], Existing(onDisk));
      assert [r.paths[0]][..0] == [];
      Listed(RecentList(kept, r.saved), kept)
    else Listed(RecentList(kept, r.saved), kept)
  }

  /** `LoadData`: when the settings file exists, replace the list by its usable
      lines, first occurrences only, at most five; a failed read empties the list.
      The loop streams the lines the way the LINQ pipeline does, remembering the
      keys seen so far and stopping once five entries are taken. */
  method LoadData(r: RecentList, onDisk: set<string>, readOk: bool) returns (r': RecentList)
    ensures r.saved.None? ==> r' == r
    ensures r.saved.Some? && !readOk ==> r' == RecentList([], r.saved)
    ensures r.saved.Some? && readOk ==> r' == RecentList(Loaded(r.saved.value, onDisk), r.saved)
    ensures r.saved.Some? ==> Valid(r') && forall x :: x in r'.paths ==> !IsBlank(x) && x in onDisk
  {
    if r.saved.None? {
      return r;
    }
    if !readOk {
      return RecentList([], r.saved);
    }
    var lines := r.saved.value;
    var paths: seq<string> := [];
    var seen: set<string> := {};
    var i := 0;
    while i < |lines| && |paths| < MaxRecentFiles
      invariant 0 <= i <= |lines|
      invariant |paths| <= MaxRecentFiles
      invariant paths == Distinct(Keep(lines[..i], Usable(onDisk)))
      invariant seen == KeySet(Keep(lines[..i], Usable(onDisk)))
    {
      var line := lines[i];
      LoadStep(lines, i, onDisk);
      if !IsBlank(line) && line in onDisk {
        if Key(line) !in seen {
          paths := paths + [line];
        }
        seen := seen + {Key(line)};
      }
      i := i + 1;
    }
    LoadExit(lines, i, onDisk);
    LoadedValid(lines, onDisk);
    r' := RecentList(paths, r.saved);
  }

  /** The `RecentList` constructor: start empty and load the settings file. */
  method Create(saved: Option<seq<string>>, onDisk: set<string>, readOk: bool) returns (r: RecentList)
    ensures r.saved == saved
    ensures Valid(r)
    ensures forall x :: x in r.paths ==> x in onDisk
    ensures saved.Some? && readOk ==> r.paths == Loaded(saved.value, onDisk)
    ensures saved.None? || !readOk ==> r.paths == []
  {
    r := LoadData(RecentList([], saved), onDisk, readOk);
  }

  // ---------------------------------------------------------------------------
  // Properties of the list operations

  /** `Add` keeps every invariant of the list. */
  lemma AddValid(r: RecentList, fileName: string)
    requires Valid(r)
    ensures Valid(Add(r, fileName))
  {
    if fileName != "" {
      var rest := Keep(r.paths, OtherThan(fileName));
      KeepUnique(r.paths, OtherThan(fileName));
      var moved := [fileName] + rest;
      assert Unique(moved) by {
        forall i, j | 0 <= i < j < |moved|
          ensures !SameFile(moved[i], moved[j])
        {
          if i == 0 {
            assert moved[j] in rest;
          } else {
            assert moved[i] == rest[i - 1] && moved[j] == rest[j - 1];
          }
        }
      }
      var paths := Add(r, fileName).paths;
      assert paths == Take(moved, MaxRecentFiles);
      forall x | x in paths ensures x != "" {
        assert x in moved;
      }
    }
  }

  /** `Add` keeps the surviving old entries in their old order, and drops one
      of them only when the list is full. */
  lemma AddKeepsOrder(r: RecentList, fileName: string)
    requires fileName != ""
    ensures var r' := Add(r, fileName);
            && r'.paths[1..] <= Keep(r.paths, OtherThan(fileName))
            && IsSubsequence(r'.paths[1..], r.paths)
            && forall x :: x in r.paths && !SameFile(x, fileName) ==>
                 x in r'.paths || |r'.paths| == MaxRecentFiles
  {
    var rest := Keep(r.paths, OtherThan(fileName));
    var paths := Add(r, fileName).paths;
    assert paths == Take([fileName] + rest, MaxRecentFiles);
    assert paths[1..] == Take(rest, MaxRecentFiles - 1);
    assert Take(rest, MaxRecentFiles - 1) <= rest;
    SubsequencePrefix(rest, r.paths, |paths| - 1);
    forall x | x in r.paths && !SameFile(x, fileName) && |paths| < MaxRecentFiles
      ensures x in paths
    {
      assert x in rest;
      assert paths == [fileName] + rest;
    }
  }

  /** Adding a new file to a full list drops the least recent entry. */
  lemma AddToFullDropsOldest(r: RecentList, fileName: string)
    requires fileName != "" && |r.paths| == MaxRecentFiles
    requires forall x :: x in r.paths ==> !SameFile(x, fileName)
    ensures Add(r, fileName).paths == [fileName] + r.paths[..MaxRecentFiles - 1]
  {
    KeepAll(r.paths, OtherThan(fileName));
    assert ([fileName] + r.paths)[..MaxRecentFiles] == [fileName] + r.paths[..MaxRecentFiles - 1];
  }

  /** Adding the same path twice in a row is the same as adding it once. */
  lemma AddIdempotent(r: RecentList, fileName: string)
    ensures Add(Add(r, fileName), fileName) == Add(r, fileName)
  {
    if fileName != "" {
      var once := Add(r, fileName);
      var twice := Add(once, fileName);
      AddedRestKept(r, fileName);
      assert once.paths == [fileName] + once.paths[1..];
      assert twice.paths == Take([fileName] + once.paths[1..], MaxRecentFiles);
      assert twice.paths == once.paths;
    }
  }

  /** After `Add`, filtering out `fileName` leaves exactly the entries behind it. */
  lemma AddedRestKept(r: RecentList, fileName: string)
    requires fileName != ""
    ensures var once := Add(r, fileName);
            Keep(once.paths, OtherThan(fileName)) == once.paths[1..]
  {
    var once := Add(r, fileName);
    var tail := once.paths[1..];
    assert once.paths == [fileName] + tail;
    assert Keep([fileName], OtherThan(fileName)) == [] by {
      assert !OtherThan(fileName)(fileName);
      assert [fileName][..0] == [];
    }
    KeepConcat([fileName], tail, OtherThan(fileName));
    forall x | x in tail ensures OtherThan(fileName)(x) {
      var i :| 0 <= i < |tail| && tail[i] == x;
      assert x == once.paths[i + 1];
    }
    KeepAll(tail, OtherThan(fileName));
  }

  /** Pruning twice is the same as pruning once. */
  lemma GetFilePathsIdempotent(r: RecentList, onDisk: set<string>)
    ensures var once := GetFilePaths(r, onDisk).list;
            GetFilePaths(once, onDisk) == Listed(once, once.paths)
  {
    var once := GetFilePaths(r, onDisk).list;
    KeepAll(once.paths, Existing(onDisk));
  }

  /** What `SaveData` writes, `LoadData` reads back unchanged, provided every
      entry still exists and is not blank. */
  lemma SaveLoadRoundTrip(r: RecentList, onDisk: set<string>)
    requires Valid(r)
    requires forall x :: x in r.paths ==> !IsBlank(x) && x in onDisk
    ensures Loaded(SaveData(r).saved.value, onDisk) == r.paths
  {
    KeepAll(r.paths, Usable(onDisk));
    DistinctOfUnique(r.paths);
  }

  /** Adding a file the list does not name yet, to a list that is not full,
      pushes it in front of all the old entries. */
  lemma AddNew(r: RecentList, fileName: string)
    requires fileName != "" && |r.paths| < MaxRecentFiles
    requires forall x :: x in r.paths ==> !SameFile(x, fileName)
    ensures Add(r, fileName).paths == [fileName] + r.paths
  {
    KeepAll(r.paths, OtherThan(fileName));
  }

  /** The move-to-front scenario: starting empty, adding x, then y, then x
      again leaves exactly x in front of y. */
  lemma MoveToFrontScenario(x: string, y: string)
    requires x != "" && y != "" && !SameFile(x, y)
    ensures Add(Add(Add(RecentList([], None), x), y), x).paths == [x, y]
  {
    var r1 := Add(RecentList([], None), x);
    AddNew(RecentList([], None), x);
    var r2 := Add(r1, y);
    AddNew(r1, y);
    MoveBack(r2, x, y);
  }

  lemma MoveBack(r: RecentList, x: string, y: string)
    requires r.paths == [y, x] && x != "" && !SameFile(x, y)
    ensures Add(r, x).paths == [x, y]
  {
    assert Keep([y, x], OtherThan(x)) == [y] by {
      assert [y, x][..1] == [y];
      assert [y][..0] == [];
      assert OtherThan(x)(y);
    }
  }

  /** The same scenario with the paths "/a/x.txt" and "/a/y.txt". */
  lemma MoveToFrontExample()
    ensures Add(Add(Add(RecentList([], None), "/a/x.txt"), "/a/y.txt"), "/a/x.txt").paths
         == ["/a/x.txt", "/a/y.txt"]
  {
    KeyAt("/a/x.txt", 3);
    KeyAt("/a/y.txt", 3);
    MoveToFrontScenario("/a/x.txt", "/a/y.txt");
  }

  // ---------------------------------------------------------------------------
  // Lemmas about the sequence helpers

  lemma {:induction false} SubsequencePrefix(a: seq<string>, b: seq<string>, k: nat)
    requires IsSubsequence(a, b)
    ensures IsSubsequence(Take(a, k), b)
    decreases |b|
  {
    if k < |a| && a[..k] != [] {
      if IsSubsequence(a, b[..|b| - 1]) {
        SubsequencePrefix(a, b[..|b| - 1], k);
      } else {
        assert a[..k] == a[..|a| - 1][..k];
        SubsequencePrefix(a[..|a| - 1], b[..|b| - 1], k);
      }
    }
  }

  lemma {:induction false} KeepUnique(s: seq<string>, f: string -> bool)
    ensures Unique(s) ==> Unique(Keep(s, f))
    decreases |s|
  {
    if s != [] && Unique(s) {
      var init := Keep(s[..|s| - 1], f);
      KeepUnique(s[..|s| - 1], f);
      if f(s[|s| - 1]) {
        var r := init + [s[|s| - 1]];
        forall i, j | 0 <= i < j < |r|
          ensures !SameFile(r[i], r[j])
        {
          if j == |r| - 1 {
            assert r[i] in s[..|s| - 1];
            var k :| 0 <= k < |s| - 1 && s[k] == r[i];
          } else {
            assert r[i] == init[i] && r[j] == init[j];
          }
        }
      }
    }
  }

  lemma {:induction false} KeepAll(s: seq<string>, f: string -> bool)
    requires forall x :: x in s ==> f(x)
    ensures Keep(s, f) == s
    decreases |s|
  {
    if s != [] {
      KeepAll(s[..|s| - 1], f);
    }
  }

  lemma {:induction false} KeepConcat(a: seq<string>, b: seq<string>, f: string -> bool)
    ensures Keep(a + b, f) == Keep(a, f) + Keep(b, f)
    decreases |b|
  {
    if b == [] {
      assert a + b == a;
    } else {
      assert (a + b)[..|a + b| - 1] == a + b[..|b| - 1];
      KeepConcat(a, b[..|b| - 1], f);
    }
  }

  lemma {:induction false} KeepPrefix(s: seq<string>, i: nat, f: string -> bool)
    requires i <= |s|
    ensures Keep(s[..i], f) <= Keep(s, f)
    decreases |s| - i
  {
    if i == |s| {
      assert s[..i] == s;
    } else {
      KeepPrefix(s, i + 1, f);
      var t := s[..i + 1];
      assert t[..|t| - 1] == s[..i];
      assert Keep(s[..i], f) <= Keep(t, f);
    }
  }

  lemma {:induction false} DistinctPrefix(a: seq<string>, b: seq<string>)
    requires a <= b
    ensures Distinct(a) <= Distinct(b)
    decreases |b|
  {
    if |a| < |b| {
      assert a <= b[..|b| - 1];
      DistinctPrefix(a, b[..|b| - 1]);
    } else {
      assert a == b;
    }
  }

  /** `Distinct` never keeps two spellings of one file. */
  lemma {:induction false} DistinctUnique(s: seq<string>)
    ensures Unique(Distinct(s))
    decreases |s|
  {
    if s != [] {
      var init := Distinct(s[..|s| - 1]);
      DistinctUnique(s[..|s| - 1]);
      if FirstOccurrence(s, |s| - 1) {
        var r := init + [s[|s| - 1]];
        forall i, j | 0 <= i < j < |r|
          ensures !SameFile(r[i], r[j])
        {
          if j == |r| - 1 {
            assert r[i] in s[..|s| - 1];
            var k :| 0 <= k < |s| - 1 && s[k] == r[i];
          } else {
            assert r[i] == init[i] && r[j] == init[j];
          }
        }
      }
    }
  }

  /** Every file named in `s` is still named by some entry `Distinct` keeps. */
  lemma DistinctComplete(s: seq<string>, x: string)
    requires x in s
    ensures exists y :: y in Distinct(s) && SameFile(x, y)
  {
    var k :| 0 <= k < |s| && s[k] == x;
    var j := FirstOf(s, k);
    assert s[j] in Distinct(s);
  }

  /** The first entry of `s` that names the same file as `s[k]`. */
  lemma {:induction false} FirstOf(s: seq<string>, k: nat) returns (j: nat)
    requires k < |s|
    ensures j <= k && SameFile(s[j], s[k]) && FirstOccurrence(s, j)
    decreases k
  {
    if FirstOccurrence(s, k) {
      j := k;
    } else {
      var i :| 0 <= i < k && SameFile(s[i], s[k]);
      j := FirstOf(s, i);
    }
  }

  /** The entries of `r` appear in the order in which their files first occur in `s`. */
  predicate OrderedBy(s: seq<string>, r: seq<string>) {
    forall k, l :: 0 <= k < l < |r| ==> FirstIndexOf(s, r[k]) < FirstIndexOf(s, r[l])
  }

  /** `Distinct` keeps its entries in the order in which their files first
      occur in `s`. */
  lemma {:induction false} DistinctOrder(s: seq<string>)
    ensures OrderedBy(s, Distinct(s))
    decreases |s|, 1
  {
    if s != [] {
      DistinctOrderStep(s);
    }
  }

  /** The induction step of `DistinctOrder`, from the list without its last entry. */
  lemma {:induction false} DistinctOrderStep(s: seq<string>)
    requires s != []
    ensures OrderedBy(s, Distinct(s))
    decreases |s|, 0
  {
    var init := Distinct(s[..|s| - 1]);
    DistinctOrder(s[..|s| - 1]);
    OrderedInPrefix(s, init);
    DistinctStep(s);
    if FirstOccurrence(s, |s| - 1) {
      OrderedAppendFirst(s, init);
    }
  }

  /** The last entry of `s`, when it is the first occurrence of its file, may
      follow entries whose files first occur earlier. */
  lemma OrderedAppendFirst(s: seq<string>, r: seq<string>)
    requires s != [] && FirstOccurrence(s, |s| - 1) && OrderedBy(s, r)
    requires forall x :: x in r ==> FirstIndexOf(s, x) < |s| - 1
    ensures OrderedBy(s, r + [s[|s| - 1]])
  {
    FirstIndexOfFirstOccurrence(s, |s| - 1);
    OrderedSnoc(s, r, s[|s| - 1]);
  }

  /** One step of `Distinct`: the last entry is appended exactly when it is
      the first occurrence of its file. */
  lemma DistinctStep(s: seq<string>)
    requires s != []
    ensures Distinct(s) == if FirstOccurrence(s, |s| - 1)
                           then Distinct(s[..|s| - 1]) + [s[|s| - 1]]
                           else Distinct(s[..|s| - 1])
  {
  }

  /** Order by first occurrence in a prefix of `s` is order by first
      occurrence in `s`, for entries of that prefix. */
  lemma OrderedInPrefix(s: seq<string>, r: seq<string>)
    requires s != [] && OrderedBy(s[..|s| - 1], r)
    requires forall x :: x in r ==> x in s[..|s| - 1]
    ensures OrderedBy(s, r)
    ensures forall x :: x in r ==> FirstIndexOf(s, x) < |s| - 1
  {
    forall x | x in r
      ensures FirstIndexOf(s, x) == FirstIndexOf(s[..|s| - 1], x) < |s| - 1
    {
      FirstIndexInPrefix(s, x);
    }
    forall k, l | 0 <= k < l < |r|
      ensures FirstIndexOf(s, r[k]) < FirstIndexOf(s, r[l])
    {
      assert r[k] in r && r[l] in r;
    }
  }

  /** An entry whose file first occurs after those of `r` may follow them. */
  lemma OrderedSnoc(s: seq<string>, r: seq<string>, x: string)
    requires OrderedBy(s, r)
    requires forall y :: y in r ==> FirstIndexOf(s, y) < FirstIndexOf(s, x)
    ensures OrderedBy(s, r + [x])
  {
    var t := r + [x];
    forall k, l | 0 <= k < l < |t|
      ensures FirstIndexOf(s, t[k]) < FirstIndexOf(s, t[l])
    {
      assert t[k] == r[k] && t[k] in r;
      if l < |r| {
        assert t[l] == r[l];
      }
    }
  }

  /** The search from the front finds a first occurrence at its own index. */
  lemma FirstIndexOfFirstOccurrence(s: seq<string>, i: nat)
    requires i < |s| && FirstOccurrence(s, i)
    ensures FirstIndexOf(s, s[i]) == i
  {
  }

  /** An entry of `s` without its last element is found first in that prefix. */
  lemma FirstIndexInPrefix(s: seq<string>, x: string)
    requires s != [] && x in s[..|s| - 1]
    ensures FirstIndexOf(s, x) == FirstIndexOf(s[..|s| - 1], x) < |s| - 1
  {
    var prefix := s[..|s| - 1];
    var k :| 0 <= k < |prefix| && prefix[k] == x;
    var i, j := FirstIndexOf(s, x), FirstIndexOf(prefix, x);
    assert i <= k && j <= k;
    assert s[i] == prefix[i] && s[j] == prefix[j];
  }

  lemma {:induction false} DistinctOfUnique(s: seq<string>)
    requires Unique(s)
    ensures Distinct(s) == s
    decreases |s|
  {
    if s != [] {
      DistinctOfUnique(s[..|s| - 1]);
      assert FirstOccurrence(s, |s| - 1);
    }
  }

  /** One step of the `LoadData` loop: how the usable prefix, its keys and its
      first occurrences grow when line `i` is read. */
  lemma LoadStep(lines: seq<string>, i: nat, onDisk: set<string>)
    requires i < |lines|
    ensures var before := Keep(lines[..i], Usable(onDisk));
            var after := Keep(lines[..i + 1], Usable(onDisk));
            var line := lines[i];
            if !IsBlank(line) && line in onDisk then
              && after == before + [line]
              && KeySet(after) == KeySet(before) + {Key(line)}
              && Distinct(after) == (if Key(line) in KeySet(before) then Distinct(before)
                                     else Distinct(before) + [line])
            else after == before
  {
    var before := Keep(lines[..i], Usable(onDisk));
    var line := lines[i];
    assert lines[..i + 1][..i] == lines[..i];
    if !IsBlank(line) && line in onDisk {
      var after := before + [line];
      assert Keep(lines[..i + 1], Usable(onDisk)) == after;
      assert after[..|after| - 1] == before;
      KeySetMember(before, line);
      KeySetSnoc(before, line);
      if Key(line) in KeySet(before) {
        assert !FirstOccurrence(after, |after| - 1);
      } else {
        assert FirstOccurrence(after, |after| - 1);
      }
    }
  }

  /** When the `LoadData` loop stops, the entries taken so far are the whole pipeline's result. */
  lemma LoadExit(lines: seq<string>, i: nat, onDisk: set<string>)
    requires i <= |lines|
    requires |Distinct(Keep(lines[..i], Usable(onDisk)))| <= MaxRecentFiles
    requires i == |lines| || |Distinct(Keep(lines[..i], Usable(onDisk)))| == MaxRecentFiles
    ensures Distinct(Keep(lines[..i], Usable(onDisk))) == Loaded(lines, onDisk)
  {
    if i < |lines| {
      KeepPrefix(lines, i, Usable(onDisk));
      DistinctPrefix(Keep(lines[..i], Usable(onDisk)), Keep(lines, Usable(onDisk)));
    } else {
      assert lines[..i] == lines;
    }
  }

  lemma KeySetMember(t: seq<string>, x: string)
    ensures Key(x) in KeySet(t) <==> exists j :: 0 <= j < |t| && SameFile(t[j], x)
  {
    if exists j :: 0 <= j < |t| && SameFile(t[j], x) {
      var j :| 0 <= j < |t| && SameFile(t[j], x);
      assert Key(t[j]) in KeySet(t);
    }
  }

  lemma KeySetSnoc(t: seq<string>, x: string)
    ensures KeySet(t + [x]) == KeySet(t) + {Key(x)}
  {
    var u := t + [x];
    forall k | k in KeySet(u) ensures k in KeySet(t) + {Key(x)} {
      var j :| 0 <= j < |u| && Key(u[j]) == k;
      if j < |t| {
        assert u[j] == t[j];
      }
    }
    forall k | k in KeySet(t) + {Key(x)} ensures k in KeySet(u) {
      if k in KeySet(t) {
        var j :| 0 <= j < |t| && Key(t[j]) == k;
        assert u[j] == t[j];
      } else {
        assert u[|t|] == x;
      }
    }
  }

  lemma LoadedValid(lines: seq<string>, onDisk: set<string>)
    ensures Valid(RecentList(Loaded(lines, onDisk), None))
    ensures forall x :: x in Loaded(lines, onDisk) ==> !IsBlank(x) && x in onDisk
  {
    var d := Distinct(Keep(lines, Usable(onDisk)));
    DistinctUnique(Keep(lines, Usable(onDisk)));
    var l := Loaded(lines, onDisk);
    forall x | x in l ensures !IsBlank(x) && x in onDisk && x != "" {
      assert x in d;
      assert Usable(onDisk)(x);
    }
  }
}
